=== FILE: README.md ===
# StaJun login and cookie jar, modelled in Dafny

A model of the part of the StaJun Android client that keeps a user signed
in:

- **The persistent cookie jar** (`SharedPrefsCookieStorage`). Cookies live
  in one preference string set under the key `"cookies"`. Each entry is a
  flat string `name|domain|path|value|expires|secure|httpOnly`.
  `addCookie` replaces the entries of a cookie's (name, domain, path)
  slot. `get` decodes every entry and hands the live ones whose domain and
  path match to the request. It then writes back the entries it handed
  out.
- **The login session** (`LoginData`, `LoginState`, `LoginViewModel`).
  This covers the two-step e-mail/one-time-code flow as a state machine,
  plus `clearCookies`.
- **The start-up check** (`hasAuthCookie` in `MainActivity`). The app
  counts as logged in when some stored entry splits into at least four
  `|`-separated parts and either its first part is a listed cookie name or
  its text after the third delimiter mentions "auth" or "session" in any
  letter case. An entry such as `auth_token|x`, with fewer parts, does not
  count.

## Modules

- `Options`: the `Option` type.
- `Text`: prefix and suffix tests, and Kotlin's `contains(…, ignoreCase = true)`.
- `Delimited`: Kotlin's `split("|")` and `split("|", limit = n)`, and the
  joining done by the string templates.
- `Numbers`: `Long.toString` and `toLongOrNull`, `Boolean.toString` and
  `toBoolean`.
- `CookieCodec`: the cookie record and its persisted string.
- `CookieMatcher`: `isExpired`, `matchesDomain` and `matchesPath`.
- `CookieStore`: `addCookie` and `get`, plus the corrected write-back
  described under Findings.
- `Login`: the session record and its transitions.
- `AuthCheck`: `hasAuthCookie`.

## Modelling choices

Everything outside the pure logic is a parameter:

- The clock is `now`, in milliseconds since the epoch.
- `URLDecoder.decode` is `urlDecode: string -> Option<string>`. `None`
  stands for the exception on a malformed escape.
- The e-mail pattern is `isEmail: string -> bool`.
- An HTTP exchange is an `HttpOutcome`: a status, or an exception.
- The preference file is the value of type `Store` (a set of strings)
  that an operation takes and returns.

Each asynchronous submission is split into two steps. The `Begin…` step
runs when the coroutine starts. The `Finish…` step applies the outcome.
User edits that arrive while a request is in flight can be placed
between the two.

`get` returns a list of cookies. Here it returns a map from each stored
string it accepted to the cookie decoded from it. This is the same
content with one entry per stored string. The list order is the set's
iteration order, which the code leaves unspecified.

Three behaviours of the code are easy to miss, and the model follows the
code in each:

- `addCookie` removes the cookie's slot before it checks expiry. Storing
  an already-expired cookie therefore deletes any live cookie with the
  same name, domain and path (`CookieStore.ExpiredCookieDeletesSlot`).
  It is not a no-op.
- `updateEmail` sets the state to `EMAIL_IDLE` from every state,
  including the code step and a request in flight. It does not only
  clear an e-mail error.
- The write-back of `get` keeps only the entries handed to this request.
  It does not keep every live entry, although the comment at
  `SharedPrefsCookieStorage.kt:113` says it cleans up expired cookies.
  See Findings.

## Model

| member | source | states |
|---|---|---|
| Delimited.FirstBar | app/src/main/java/com/oyajun/stajun/network/SharedPrefsCookieStorage.kt:65 | the position of the first delimiter, with no delimiter before it; -1 exactly when the string has none |
| Delimited.Split | app/src/main/java/com/oyajun/stajun/network/SharedPrefsCookieStorage.kt:65 | Kotlin's `split` on the delimiter, keeping empty parts: always at least one part; `Delimited.JoinSplit` and `Delimited.SplitJoin` relate it to joining |
| Delimited.SplitCons | app/src/main/java/com/oyajun/stajun/network/SharedPrefsCookieStorage.kt:65 | splitting a string that starts with a delimiter-free field and a delimiter gives that field followed by the split of the rest |
| Delimited.SplitAroundBar | app/src/main/java/com/oyajun/stajun/network/SharedPrefsCookieStorage.kt:65 | a delimiter between two arbitrary strings separates their parts: the split of the whole is the split of the first followed by the split of the second |
| Delimited.SplitJoinCovers | app/src/main/java/com/oyajun/stajun/network/SharedPrefsCookieStorage.kt:65 | splitting joined fields, whatever they contain, gives at least as many parts as fields, and the first part is the first field up to its first delimiter |
| Delimited.SplitJoinLast | app/src/main/java/com/oyajun/stajun/network/SharedPrefsCookieStorage.kt:65 | delimiter-free fields joined in front of any string split off as those fields, followed by the split of that string |
| Delimited.SplitJoinCons | app/src/main/java/com/oyajun/stajun/network/SharedPrefsCookieStorage.kt:65 | the same for fields followed by a delimiter and an arbitrary remainder |
| Delimited.SplitJoin | app/src/main/java/com/oyajun/stajun/network/SharedPrefsCookieStorage.kt:65 | splitting undoes the template's joining whenever no field contains the delimiter |
| Delimited.JoinSplit | app/src/main/java/com/oyajun/stajun/network/SharedPrefsCookieStorage.kt:65 | joining the parts of any string with the delimiter gives back that string; `split` loses nothing |
| Delimited.JoinAppend | app/src/main/java/com/oyajun/stajun/network/SharedPrefsCookieStorage.kt:45 | joining two runs of fields puts exactly one delimiter between them |
| Delimited.SplitLimit | app/src/main/java/com/oyajun/stajun/MainActivity.kt:54 | splitting with a limit yields between one and `limit` parts |
| Delimited.SplitLimitAgrees | app/src/main/java/com/oyajun/stajun/MainActivity.kt:54 | with a limit, the split equals the full split when that has at most `limit` parts; otherwise it is the first `limit - 1` parts followed by all remaining parts joined back |
| Numbers.NatToString | app/src/main/java/com/oyajun/stajun/network/SharedPrefsCookieStorage.kt:45 | decimal text of a number is non-empty and made of digits only |
| Numbers.ParseLong | app/src/main/java/com/oyajun/stajun/network/SharedPrefsCookieStorage.kt:71 | `toLongOrNull` accepts exactly an optional '-' or '+' followed by at least one digit, with a value that fits a `Long`: such a text always parses to the digits' value (negated after '-'), and nothing else parses |
| Numbers.DigitsOfNat | app/src/main/java/com/oyajun/stajun/network/SharedPrefsCookieStorage.kt:71 | the value of a number's decimal text is that number |
| Numbers.ParseLongToString | app/src/main/java/com/oyajun/stajun/network/SharedPrefsCookieStorage.kt:71 | parsing the decimal text of every `Long`, negative ones included, gives back that `Long` |
| Numbers.ParseBoolToString | app/src/main/java/com/oyajun/stajun/network/SharedPrefsCookieStorage.kt:72-73 | `toBoolean` of the text written for a flag gives back that flag |
| CookieCodec.StoredValue | app/src/main/java/com/oyajun/stajun/network/SharedPrefsCookieStorage.kt:36-42 | the persisted value is the URL-decoded value, or the raw value when decoding throws |
| CookieCodec.Decode | app/src/main/java/com/oyajun/stajun/network/SharedPrefsCookieStorage.kt:63-85 | a stored string decodes exactly when it has at least seven parts; the decoded cookie always has a domain and a path; its expiry is present exactly when part 4 parses as a positive number, and is then that number; a part 4 that is not a number or not positive reads as no expiry |
| CookieCodec.Encode | app/src/main/java/com/oyajun/stajun/network/SharedPrefsCookieStorage.kt:45 | the persisted string written by `addCookie`; `CookieCodec.DecodeEncode` and `CookieCodec.SplitEncode` state what reading it back gives |
| CookieCodec.EncodeSplitsAtKey | app/src/main/java/com/oyajun/stajun/network/SharedPrefsCookieStorage.kt:24-45 | a persisted string is the identity key (name, domain and path joined by delimiters), a delimiter, and the four remaining fields |
| CookieCodec.EncodeHasIdentityPrefix | app/src/main/java/com/oyajun/stajun/network/SharedPrefsCookieStorage.kt:27-31 | every string `addCookie` writes starts with the prefix its removal step tests for |
| CookieCodec.EncodeLeadingParts | app/src/main/java/com/oyajun/stajun/network/SharedPrefsCookieStorage.kt:65-69 | for a delimiter-free name, domain and path, the first three parts read back are those fields, whatever the value holds |
| CookieCodec.EncodeSplitsIntoSeven | app/src/main/java/com/oyajun/stajun/network/SharedPrefsCookieStorage.kt:45-65 | whatever the fields hold, a persisted string splits into at least seven parts, the first being the name up to its first delimiter |
| CookieCodec.SplitEncode | app/src/main/java/com/oyajun/stajun/network/SharedPrefsCookieStorage.kt:45-65 | for delimiter-free fields, splitting the persisted string gives exactly the seven fields |
| CookieCodec.DecodeEncode | app/src/main/java/com/oyajun/stajun/network/SharedPrefsCookieStorage.kt:44-85 | round trip: reading back a persisted cookie recovers name, domain, path, stored value, expiry and both flags, for delimiter-free fields and an expiry that is absent or positive |
| CookieCodec.DecodeNonPositiveExpiry | app/src/main/java/com/oyajun/stajun/network/SharedPrefsCookieStorage.kt:71-76 | for a delimiter-free name, domain, path and value, an expiry that is zero or negative reads back as no expiry, with the other fields intact |
| CookieCodec.NumberFieldsBarFree | app/src/main/java/com/oyajun/stajun/network/SharedPrefsCookieStorage.kt:45 | the expiry and flag fields never contain the delimiter |
| CookieCodec.BarInValueIsCut | app/src/main/java/com/oyajun/stajun/network/SharedPrefsCookieStorage.kt:65-70 | for a delimiter-free name, domain and path, a value containing the delimiter is cut there: "a", delimiter, "b" reads back as "a" |
| CookieMatcher.IsExpired | app/src/main/java/com/oyajun/stajun/network/SharedPrefsCookieStorage.kt:123-126 | an expiry strictly before the clock; `CookieMatcher.ExpiryIsStrict` states the boundary and the no-expiry case |
| CookieMatcher.MatchesDomain | app/src/main/java/com/oyajun/stajun/network/SharedPrefsCookieStorage.kt:128-137 | the two-branch domain test; `CookieMatcher.DomainRuleIgnoresLeadingDot`, `CookieMatcher.DomainMatchIsOnLabelBoundary` and `CookieMatcher.LeadingDotEquivalent` state what it accepts |
| CookieMatcher.MatchesPath | app/src/main/java/com/oyajun/stajun/network/SharedPrefsCookieStorage.kt:139-141 | the prefix test on paths; `CookieMatcher.PathMatchIsExtension` states what it accepts |
| CookieMatcher.BareDomain | app/src/main/java/com/oyajun/stajun/network/SharedPrefsCookieStorage.kt:130-131 | the domain with one leading dot removed, or the domain itself when it has none |
| CookieMatcher.DomainRuleIgnoresLeadingDot | app/src/main/java/com/oyajun/stajun/network/SharedPrefsCookieStorage.kt:128-137 | both branches of `matchesDomain` are one rule: the host is the bare domain, or ends in a dot followed by it |
| CookieMatcher.DomainMatchIsOnLabelBoundary | app/src/main/java/com/oyajun/stajun/network/SharedPrefsCookieStorage.kt:128-137 | a matching host other than the bare domain ends in a dot followed by the bare domain |
| CookieMatcher.LeadingDotEquivalent | app/src/main/java/com/oyajun/stajun/network/SharedPrefsCookieStorage.kt:128-137 | a domain with and without a leading dot matches the same hosts |
| CookieMatcher.DomainExamples | app/src/main/java/com/oyajun/stajun/network/SharedPrefsCookieStorage.kt:128-137 | `.example.com` matches `sub.example.com` and `example.com`; `example.com` matches itself but not `evilexample.com` |
| CookieMatcher.PathMatchIsExtension | app/src/main/java/com/oyajun/stajun/network/SharedPrefsCookieStorage.kt:139-141 | a cookie path matches exactly the request paths that extend it |
| CookieMatcher.PathExamples | app/src/main/java/com/oyajun/stajun/network/SharedPrefsCookieStorage.kt:139-141 | "/" matches every absolute path; "/api/v1" does not match "/api"; "/api" matches "/api2", since the test does not respect path segments |
| CookieMatcher.ExpiryIsStrict | app/src/main/java/com/oyajun/stajun/network/SharedPrefsCookieStorage.kt:123-126 | a cookie is live at the exact millisecond of its expiry and expired one millisecond later; a cookie without expiry never expires |
| CookieStore.AddCookie | app/src/main/java/com/oyajun/stajun/network/SharedPrefsCookieStorage.kt:18-54 | last write wins: after adding, the cookie's slot holds at most the new string; that string is present exactly when the cookie is live; nothing outside the slot is removed and nothing else is added |
| CookieStore.IdentityIsPrefix | app/src/main/java/com/oyajun/stajun/network/SharedPrefsCookieStorage.kt:24-31 | a stored string with an identity starts with that identity joined and a delimiter |
| CookieStore.AddCookieKeepsIdentitiesUnique | app/src/main/java/com/oyajun/stajun/network/SharedPrefsCookieStorage.kt:24-46 | adding a cookie with a delimiter-free name, domain and path keeps (name, domain, path) unique across the store |
| CookieStore.Lookup | app/src/main/java/com/oyajun/stajun/network/SharedPrefsCookieStorage.kt:90-95 | a request receives only stored strings |
| CookieStore.Get | app/src/main/java/com/oyajun/stajun/network/SharedPrefsCookieStorage.kt:56-121 | `get` returns exactly the decodable, live, domain- and path-matching stored strings, each with the cookie decoded from it; it writes back exactly the returned strings |
| CookieStore.SubsetIsNoLarger | app/src/main/java/com/oyajun/stajun/network/SharedPrefsCookieStorage.kt:114 | a subset is no larger than its superset |
| CookieStore.ProperSubsetIsSmaller | app/src/main/java/com/oyajun/stajun/network/SharedPrefsCookieStorage.kt:114 | a proper subset is strictly smaller, so the size test at the write-back detects every dropped entry |
| CookieStore.AddedCookieIsServed | app/src/main/java/com/oyajun/stajun/network/SharedPrefsCookieStorage.kt:18-95 | for a cookie with a delimiter-free name, domain, path and stored value and an expiry that is absent or positive, live when added: it goes to a request exactly when it is still live and its domain and path match, and it reads back with the stored value and the fields it was added with |
| CookieStore.ExpiredCookieDeletesSlot | app/src/main/java/com/oyajun/stajun/network/SharedPrefsCookieStorage.kt:29-35 | adding an expired cookie leaves the old store minus that cookie's slot |
| CookieStore.AddedToEmptyJar | app/src/main/java/com/oyajun/stajun/network/SharedPrefsCookieStorage.kt:18-121 | for a cookie with a delimiter-free name, domain, path and stored value and an expiry that is absent or positive, live when added to an empty jar: it is all a request can receive, exactly that cookie when it is still live and its domain and path match, otherwise nothing |
| CookieStore.AuthTokenScenario | app/src/main/java/com/oyajun/stajun/network/SharedPrefsCookieStorage.kt:18-121 | `auth_token=abc` stored for `api.example.com` is sent, with value `abc`, to `/api/v1/record` on that host, given a URL decoder that leaves `abc` as it is |
| CookieStore.LookupPurgesOtherHosts | app/src/main/java/com/oyajun/stajun/network/SharedPrefsCookieStorage.kt:90-117 | as written: a live entry with delimiter-free fields whose domain does not match the request host is not written back, so the request erases it |
| CookieStore.CollectGarbage | app/src/main/java/com/oyajun/stajun/network/SharedPrefsCookieStorage.kt:113-117 | the intended write-back keeps exactly the decodable, unexpired entries; every entry any request could receive survives |
| CookieStore.GetRetainingLive | app/src/main/java/com/oyajun/stajun/network/SharedPrefsCookieStorage.kt:56-121 | `get` with the intended write-back: the same cookies are returned, and every live, well-formed entry is kept |
| CookieStore.CollectGarbageKeepsOtherHosts | app/src/main/java/com/oyajun/stajun/network/SharedPrefsCookieStorage.kt:113-117 | with the intended write-back, the entry of `LookupPurgesOtherHosts` survives |
| Login.EightStates | app/src/main/java/com/oyajun/stajun/model/LoginData.kt:10-19 | `LoginState` has exactly eight values |
| Login.Fresh | app/src/main/java/com/oyajun/stajun/model/LoginData.kt:3-8 | a new session has an empty address, a false validity flag, an empty code and state `EMAIL_IDLE` |
| Login.UpdateEmail | app/src/main/java/com/oyajun/stajun/ui/login/LoginViewModel.kt:29-35 | editing the address stores it and its pattern check, resets the state to `EMAIL_IDLE`, and keeps the code |
| Login.UpdateOtp | app/src/main/java/com/oyajun/stajun/ui/login/LoginViewModel.kt:37-42 | editing the code stores it; `OTP_ERROR` becomes `OTP_IDLE` and every other state is kept; the address is kept |
| Login.BeginSubmitEmail | app/src/main/java/com/oyajun/stajun/ui/login/LoginViewModel.kt:44-47 | submitting the address enters `EMAIL_LOADING` and clears the code |
| Login.FinishSubmitEmail | app/src/main/java/com/oyajun/stajun/ui/login/LoginViewModel.kt:58-67 | the answer gives `EMAIL_SUCCESS` exactly for a 2xx status, and `EMAIL_ERROR` exactly for any other status or an exception |
| Login.BeginSubmitOtp | app/src/main/java/com/oyajun/stajun/ui/login/LoginViewModel.kt:72-74 | submitting the code enters `OTP_LOADING` and keeps the form |
| Login.FinishSubmitOtp | app/src/main/java/com/oyajun/stajun/ui/login/LoginViewModel.kt:90-106 | the answer gives `OTP_SUCCESS` exactly for a 2xx status, and `OTP_ERROR` exactly for any other status or an exception |
| Login.ResetErrorState | app/src/main/java/com/oyajun/stajun/ui/login/LoginViewModel.kt:112-118 | `EMAIL_ERROR` becomes `EMAIL_IDLE`, `OTP_ERROR` becomes `OTP_IDLE`, and any other session is unchanged |
| Login.ClearCookies | app/src/main/java/com/oyajun/stajun/ui/login/LoginViewModel.kt:121-125 | the stored cookie set after clearing; `AuthCheck.ClearCookiesLogsOut` states that it logs the app out and serves no cookie |
| Login.ResetErrorStateIdempotent | app/src/main/java/com/oyajun/stajun/ui/login/LoginViewModel.kt:112-118 | dismissing twice equals dismissing once, and no error state remains |
| Login.SubmitEmailSettles | app/src/main/java/com/oyajun/stajun/ui/login/LoginViewModel.kt:44-70 | a completed e-mail submission never stays loading, succeeds exactly on 2xx, and leaves the code empty |
| Login.SubmitOtpSettles | app/src/main/java/com/oyajun/stajun/ui/login/LoginViewModel.kt:72-109 | a completed code submission never stays loading, succeeds exactly on 2xx, and leaves the form as it was |
| Login.EmailValidTracksEmail | app/src/main/java/com/oyajun/stajun/ui/login/LoginViewModel.kt:29-35 | given an address pattern that rejects the empty address, along every sequence of events the validity flag equals the pattern check of the current address |
| Login.SignedInOnlyAfterAcceptedOtp | app/src/main/java/com/oyajun/stajun/ui/login/LoginViewModel.kt:90-99 | `OTP_SUCCESS` is reached only through a 2xx answer to a code submission |
| Login.StaleAnswerMarksEditedEmailSent | app/src/main/java/com/oyajun/stajun/ui/login/LoginViewModel.kt:44-62 | an address edited while its request is in flight is marked sent by that request's 2xx answer |
| AuthCheck.IsAuthEntry | app/src/main/java/com/oyajun/stajun/MainActivity.kt:52-73 | the per-entry test: a split into at most four parts, all four present, and a listed name or an auth word after the third delimiter; `AuthCheck.AuthEntryByFullSplit` restates it over the full split |
| AuthCheck.LoggedIn | app/src/main/java/com/oyajun/stajun/MainActivity.kt:52-73 | some stored entry passes the per-entry test; `AuthCheck.HasAuthCookie` computes it |
| AuthCheck.HasAuthCookie | app/src/main/java/com/oyajun/stajun/MainActivity.kt:52-76 | the app counts as logged in exactly when some stored entry counts as an authentication cookie; an empty store is logged out |
| AuthCheck.AuthEntryByFullSplit | app/src/main/java/com/oyajun/stajun/MainActivity.kt:54-66 | an entry counts exactly when it has at least four parts and either its name is listed or the text after its third delimiter mentions "auth" or "session" in any letter case |
| AuthCheck.StoredAuthCookieLogsIn | app/src/main/java/com/oyajun/stajun/MainActivity.kt:56-64 | storing a live cookie under a listed name logs the app in, whatever its domain, path and value hold |
| AuthCheck.NumberMentionsNoAuthWord | app/src/main/java/com/oyajun/stajun/MainActivity.kt:65-66 | an expiry field never mentions "auth" or "session" |
| AuthCheck.FlagMentionsNoAuthWord | app/src/main/java/com/oyajun/stajun/MainActivity.kt:65-66 | a flag field never mentions "auth" or "session" |
| AuthCheck.RemainderMentionsOnlyValue | app/src/main/java/com/oyajun/stajun/MainActivity.kt:57-66 | the text after the third delimiter of a persisted cookie mentions a word exactly when the stored value does |
| AuthCheck.PersistedCookieIsAuthIff | app/src/main/java/com/oyajun/stajun/MainActivity.kt:52-76 | for a delimiter-free name, domain and path, a cookie stored by `addCookie` counts exactly when its name is listed or its stored value mentions "auth" or "session" in any letter case |
| AuthCheck.ClearCookiesLogsOut | app/src/main/java/com/oyajun/stajun/ui/login/LoginViewModel.kt:121-125 | after `clearCookies` the app starts logged out and no request carries a cookie |
| AuthCheck.LookupElsewhereLogsOut | app/src/main/java/com/oyajun/stajun/network/SharedPrefsCookieStorage.kt:90-117 | as written: a store holding only one live session cookie, with delimiter-free domain, path and stored value, is logged out by one request to a host its domain does not match |
| AuthCheck.CollectGarbageKeepsLogin | app/src/main/java/com/oyajun/stajun/network/SharedPrefsCookieStorage.kt:113-117 | with the intended write-back, a request never logs the app out while a live authentication entry is stored |
| Text.IndexOfIgnoreCase | app/src/main/java/com/oyajun/stajun/MainActivity.kt:65-66 | the first offset at or after `from` where the needle occurs ignoring case, or -1 when there is none |
| Text.ContainsIgnoreCaseIff | app/src/main/java/com/oyajun/stajun/MainActivity.kt:65-66 | `contains(…, ignoreCase = true)` holds exactly when some offset matches |
| Text.ContainsAroundSeparator | app/src/main/java/com/oyajun/stajun/MainActivity.kt:65-66 | when the separator matches no character of the needle, the needle occurs across it exactly when it occurs on one side |

## Left out

- Logging (`Log.*`, `println`) and the `close` method, which does nothing.
- SharedPreferences I/O. The store is a value passed in and returned. Concurrent `addCookie` and `get` calls, and their interleavings, are not modelled.
- The coroutine scheduling of `submitEmail` and `submitOtp` beyond the begin/finish split. `HttpClientProvider` is not part of this model, and neither are the request URLs or JSON bodies. A response is reduced to its status.
- `submitOtp` reads the cookie set for logging only. That read is left out because it changes nothing.
- `get` wraps the expiry date, the cookie construction and the three matching tests in a try/catch. None of these throws for the values decoded from a stored string, so no exception path is modelled there.
- The URL decoder, the e-mail address pattern and the clock are parameters. Their behaviour is not modelled.
- `CookieStore.Get` takes one `now` for the whole call. The source reads the clock once per stored string: `isExpired` builds a fresh `GMTDate()` (SharedPrefsCookieStorage.kt:125), and `get` calls it at line 90 for each string its `mapNotNull` at line 63 visits. A string that expires during the loop is therefore judged at a different instant there.
- `Numbers.ParseLong` accepts ASCII digits only. Kotlin's `toLongOrNull` also accepts other Unicode decimal digits.
- `Text.IndexOfIgnoreCase` compares characters under a case mapping that covers ASCII and the four non-ASCII characters whose case maps into ASCII (ı, ſ, İ and the Kelvin sign). Other characters compare by their own value only. The needles used ("auth", "session") are ASCII, so no other character can match them.
- `Cookie` keeps only the fields the store reads. Ktor's max-age, extensions and encoding are not modelled.
- The screens and the timeline paging code are not modelled, and neither is the rest of `MainActivity` beyond `hasAuthCookie`.
- `CookieCodec.DecodeEncode`: the round trip holds only for delimiter-free fields. A '|' in the value cuts it short (`CookieCodec.BarInValueIsCut`). A '|' in the name, domain or path also breaks the identity key. The source does not escape the delimiter.
- `CookieStore.AddCookieKeepsIdentitiesUnique` requires a delimiter-free name, domain and path, for the same reason.

## Findings

| source | as written | input that shows it | evidently intended | confidence | as-written member | corrected member |
|---|---|---|---|---|---|---|
| app/src/main/java/com/oyajun/stajun/network/SharedPrefsCookieStorage.kt:113-117 | the write-back stores `validCookies`, the entries handed to this request, whenever that set is smaller than the stored set | a store holding one live `auth_token` entry for `api.example.com`, then any request to another host: the entry is not handed out, so the written set is empty and the session is lost | the comment at line 113 says the write-back cleans up expired cookies: keep every decodable, unexpired entry | medium, not executed | CookieStore.LookupPurgesOtherHosts, AuthCheck.LookupElsewhereLogsOut | CookieStore.CollectGarbage, CookieStore.GetRetainingLive, CookieStore.CollectGarbageKeepsOtherHosts, AuthCheck.CollectGarbageKeepsLogin |

`CookieStore.Get` models the code as written. The rest of the model
states the corrected write-back through `CookieStore.CollectGarbage`.

=== FILE: auth_check.dfy ===
/**
 * The start-up login decision: the app counts as logged in when some
 * stored cookie string looks like an authentication cookie.
 */
module AuthCheck {
  import opened Options
  import opened Delimited
  import opened Text
  import opened CookieCodec
  import opened CookieMatcher
  import opened CookieStore
  import opened Numbers
  import Login

  /** Cookie names that always count as authentication cookies. */
  const AuthCookieNames: seq<string> := ["auth_token", "session_id", "access_token", "sessionid", "jwt"]

  /**
   * One stored string, split on `|` into at most four parts, counts when it
   * has all four and either its first part is one of the names above or
   * its fourth part (everything after the third delimiter) contains "auth"
   * or "session" in any letter case.
   */
  predicate IsAuthEntry(entry: string) {
    var parts := SplitLimit(entry, 4);
    && |parts| >= 4
    && (|| parts[0] in AuthCookieNames
        || ContainsIgnoreCase(parts[3], "auth")
        || ContainsIgnoreCase(parts[3], "session"))
  }

  /** Some stored string counts as an authentication cookie. */
  predicate LoggedIn(store: Store) {
    exists e :: e in store && IsAuthEntry(e)
  }

  /**
   * `hasAuthCookie`: goes through the stored strings and stops at the
   * first one that counts. An empty store is never logged in.
   */
  method HasAuthCookie(store: Store) returns (loggedIn: bool)
    ensures loggedIn <==> LoggedIn(store)
    ensures store == {} ==> !loggedIn
  {
    loggedIn := false;
    var pending := store;
    while pending != {} && !loggedIn
      invariant pending <= store
      invariant loggedIn ==> LoggedIn(store)
      invariant !loggedIn ==> forall e :: e in store && e !in pending ==> !IsAuthEntry(e)
      decreases pending
    {
      var e :| e in pending;
      pending := pending - {e};
      loggedIn := IsAuthEntry(e);
    }
  }

  /**
   * The same rule stated on the full split: a string counts exactly when
   * it has at least four `|`-parts and its first part is a listed name or
   * the remaining parts, joined back, mention "auth" or "session". In
   * particular a string with fewer than four parts never counts.
   */
  lemma AuthEntryByFullSplit(entry: string)
    ensures var parts := Split(entry);
      IsAuthEntry(entry)
      <==> |parts| >= 4
           && (|| parts[0] in AuthCookieNames
               || ContainsIgnoreCase(Join(parts[3..]), "auth")
               || ContainsIgnoreCase(Join(parts[3..]), "session"))
  {
    var parts := Split(entry);
    SplitLimitAgrees(entry, 4);
    if |parts| == 4 {
      assert parts[3..] == [parts[3]];
    }
  }

  /** None of the listed names holds the delimiter. */
  lemma ListedNameIsBarFree(name: string)
    requires name in AuthCookieNames
    ensures BarFree(name)
  {
  }

  /**
   * Storing a live cookie under one of the listed names logs the app in,
   * whatever its domain, path and value hold.
   */
  lemma StoredAuthCookieLogsIn(store: Store, host: string, c: Cookie, now: int,
                               urlDecode: string -> Option<string>)
    requires c.name in AuthCookieNames
    requires !IsExpired(c.expires, now)
    ensures LoggedIn(AddCookie(store, host, c, now, urlDecode))
  {
    var e := Persisted(c, host, urlDecode);
    assert IsAuthEntry(e) by {
      ListedNameIsBarFree(c.name);
      SplitBarFree(c.name);
      EncodeSplitsIntoSeven(c, host, StoredValue(urlDecode, c.value));
      AuthEntryByFullSplit(e);
    }
    assert e in AddCookie(store, host, c, now, urlDecode);
  }

  /** A needle of the remainder test, "auth" or "session". */
  predicate IsAuthWord(needle: string) {
    needle == "auth" || needle == "session"
  }

  /** No number field mentions either word: its characters are digits and a minus sign. */
  lemma NumberMentionsNoAuthWord(t: Int64, needle: string)
    requires IsAuthWord(needle)
    ensures !ContainsIgnoreCase(LongToString(t), needle)
  {
    var s := LongToString(t);
    if t < 0 {
      assert s == "-" + NatToString(-(t as int));
    }
    assert forall i :: 0 <= i < |s| ==> IsDigit(s[i]) || s[i] == '-';
    ContainsIgnoreCaseIff(s, needle);
    forall i | 0 <= i && i + |needle| <= |s|
      ensures !MatchesAt(s, needle, i)
    {
      assert !CharEqualsIgnoreCase(s[i + 0], needle[0]);
    }
  }

  /** Neither flag text mentions either word. */
  lemma FlagMentionsNoAuthWord(b: bool, needle: string)
    requires IsAuthWord(needle)
    ensures !ContainsIgnoreCase(BoolToString(b), needle)
  {
    var s := BoolToString(b);
    ContainsIgnoreCaseIff(s, needle);
    forall i | 0 <= i && i + |needle| <= |s|
      ensures !MatchesAt(s, needle, i)
    {
      if i == 1 {
        assert !CharEqualsIgnoreCase(s[i + 1], needle[1]);
      } else {
        assert !CharEqualsIgnoreCase(s[i + 0], needle[0]);
      }
    }
  }

  /**
   * The remainder of a persisted cookie mentions a word exactly when its
   * stored value does: the expiry and the two flags never do, and no
   * match can run across a delimiter.
   */
  lemma RemainderMentionsOnlyValue(c: Cookie, host: string, value: string, needle: string)
    requires IsAuthWord(needle)
    ensures ContainsIgnoreCase(Join(Fields(c, host, value)[3..]), needle) <==> ContainsIgnoreCase(value, needle)
  {
    var f := Fields(c, host, value);
    var x, b1, b2 := f[4], f[5], f[6];
    assert Join(f[5..]) == b1 + [Bar] + b2;
    assert Join(f[4..]) == x + [Bar] + Join(f[5..]);
    assert Join(f[3..]) == value + [Bar] + Join(f[4..]);
    assert forall k :: 0 <= k < |needle| ==> !CharEqualsIgnoreCase(Bar, needle[k]);
    NumberMentionsNoAuthWord(c.expires.GetOr(NoExpiry), needle);
    FlagMentionsNoAuthWord(c.secure, needle);
    FlagMentionsNoAuthWord(c.httpOnly, needle);
    ContainsAroundSeparator(b1, Bar, b2, needle);
    ContainsAroundSeparator(x, Bar, Join(f[5..]), needle);
    ContainsAroundSeparator(value, Bar, Join(f[4..]), needle);
  }

  /**
   * For a cookie stored by `addCookie` with plain name, domain and path,
   * the start-up check depends on the name and the stored value alone: it
   * counts exactly when the name is listed or the value mentions "auth"
   * or "session" in any letter case.
   */
  lemma PersistedCookieIsAuthIff(c: Cookie, host: string, urlDecode: string -> Option<string>)
    requires BarFree(c.name) && BarFree(SlotDomain(c, host)) && BarFree(SlotPath(c))
    ensures IsAuthEntry(Persisted(c, host, urlDecode))
        <==> || c.name in AuthCookieNames
             || ContainsIgnoreCase(StoredValue(urlDecode, c.value), "auth")
             || ContainsIgnoreCase(StoredValue(urlDecode, c.value), "session")
  {
    var v := StoredValue(urlDecode, c.value);
    var f := Fields(c, host, v);
    var e := Persisted(c, host, urlDecode);
    var key := [c.name, SlotDomain(c, host), SlotPath(c)];
    EncodeSplitsAtKey(c, host, v);
    SplitJoinCons(key, Join(f[3..]));
    var parts := Split(e);
    assert parts == key + Split(Join(f[3..]));
    assert parts[3..] == Split(Join(f[3..]));
    JoinSplit(Join(f[3..]));
    AuthEntryByFullSplit(e);
    RemainderMentionsOnlyValue(c, host, v, "auth");
    RemainderMentionsOnlyValue(c, host, v, "session");
  }

  /** After `clearCookies` the app starts logged out and no request carries a cookie. */
  lemma ClearCookiesLogsOut(store: Store, host: string, path: string, now: int)
    ensures !LoggedIn(Login.ClearCookies(store))
    ensures Lookup(Login.ClearCookies(store), host, path, now) == {}
  {
  }

  /**
   * As written, one request to another host logs the app out: a store
   * holding only a live session cookie is logged in, and what `get`
   * writes back after a request whose host the cookie's domain does not
   * match is not.
   */
  lemma LookupElsewhereLogsOut(c: Cookie, host: string, urlDecode: string -> Option<string>,
                               requestHost: string, requestPath: string, now: int)
    requires c.name in AuthCookieNames
    requires BarFree(SlotDomain(c, host)) && BarFree(SlotPath(c))
    requires BarFree(StoredValue(urlDecode, c.value))
    requires c.expires.None? || c.expires.value >= now
    requires !MatchesDomain(requestHost, SlotDomain(c, host))
    ensures LoggedIn({Persisted(c, host, urlDecode)})
    ensures !LoggedIn(Lookup({Persisted(c, host, urlDecode)}, requestHost, requestPath, now))
  {
    var e := Persisted(c, host, urlDecode);
    assert BarFree(c.name);
    StoredAuthCookieLogsIn({}, host, c, now, urlDecode);
    assert AddCookie({}, host, c, now, urlDecode) == {e};
    LookupPurgesOtherHosts(c, host, urlDecode, requestHost, requestPath, now);
    assert Lookup({e}, requestHost, requestPath, now) == {};
  }

  /**
   * With the intended write-back a request never logs the app out while
   * some live, well-formed stored string counts as an authentication
   * cookie.
   */
  lemma CollectGarbageKeepsLogin(store: Store, e: string, now: int)
    requires e in store && IsAuthEntry(e)
    requires Decode(e).Some? && !IsExpired(Decode(e).value.expires, now)
    ensures LoggedIn(CollectGarbage(store, now))
  {
    assert e in CollectGarbage(store, now);
  }
}

=== FILE: cookie_codec.dfy ===
/**
 * The cookie record and its flat persisted form
 * `name|domain|path|value|expires|secure|httpOnly`.
 */
module CookieCodec {
  import opened Options
  import opened Delimited
  import opened Numbers
  import Text

  /**
   * A cookie as the HTTP client hands it over (`io.ktor.http.Cookie`,
   * restricted to the fields the store reads). `domain` and `path` are
   * absent when the Set-Cookie header gave none; `expires` is the expiry
   * in epoch milliseconds, absent for a session cookie.
   */
  datatype Cookie = Cookie(
    name: string,
    value: string,
    domain: Option<string>,
    path: Option<string>,
    expires: Option<Int64>,
    secure: bool,
    httpOnly: bool)

  /** The expiry field written for a cookie without an expiry. */
  const NoExpiry: Int64 := -1

  /** The domain a cookie is filed under: its own, or else the request's host. */
  function SlotDomain(c: Cookie, host: string): string {
    c.domain.GetOr(host)
  }

  /** The path a cookie is filed under: its own, or else "/". */
  function SlotPath(c: Cookie): string {
    c.path.GetOr("/")
  }

  /**
   * The identity key `name|domain|path` of the slot a cookie occupies.
   * Like every string template of the store it writes its fields with the
   * delimiter between them, which is `Join`.
   */
  function IdentityKey(c: Cookie, host: string): string {
    Join([c.name, SlotDomain(c, host), SlotPath(c)])
  }

  /**
   * The value that is persisted: the URL-decoded value, or the raw value
   * when decoding fails. `urlDecode` stands for `URLDecoder.decode(…,
   * "UTF-8")`, with `None` for the exception it throws on a malformed
   * escape.
   */
  function StoredValue(urlDecode: string -> Option<string>, raw: string): (v: string)
    ensures urlDecode(raw).Some? ==> v == urlDecode(raw).value
    ensures urlDecode(raw).None? ==> v == raw
  {
    urlDecode(raw).GetOr(raw)
  }

  /** The seven fields of the persisted string, in order; a missing expiry is written as -1. */
  function Fields(c: Cookie, host: string, value: string): seq<string> {
    [c.name, SlotDomain(c, host), SlotPath(c), value, LongToString(c.expires.GetOr(NoExpiry)),
     BoolToString(c.secure), BoolToString(c.httpOnly)]
  }

  /** The persisted string `name|domain|path|value|expires|secure|httpOnly`. */
  function Encode(c: Cookie, host: string, value: string): string {
    Join(Fields(c, host, value))
  }

  /**
   * Reading one persisted string back: it needs at least seven
   * `|`-separated parts (further parts are ignored); an expiry that is not
   * a number or is not positive reads as "no expiry"; the flags are true
   * only for the text "true" in any letter case.
   */
  function Decode(s: string): (r: Option<Cookie>)
    ensures r.Some? <==> |Split(s)| >= 7
    ensures r.Some? ==> r.value.domain.Some? && r.value.path.Some?
    ensures r.Some? && r.value.expires.Some? ==> r.value.expires.value > 0
    // an expiry part that is not a number, or not positive, reads as "no expiry"
    ensures r.Some? && (ParseLong(Split(s)[4]).None? || ParseLong(Split(s)[4]).value <= 0) ==> r.value.expires.None?
    ensures r.Some? && r.value.expires.Some? ==> ParseLong(Split(s)[4]) == Some(r.value.expires.value)
    ensures r.Some? && ParseLong(Split(s)[4]).Some? && ParseLong(Split(s)[4]).value > 0 ==> r.value.expires == ParseLong(Split(s)[4])
  {
    var parts := Split(s);
    if |parts| < 7 then None
    else
      var timestamp := ParseLong(parts[4]).GetOr(NoExpiry);
      Some(Cookie(
        name := parts[0],
        value := parts[3],
        domain := Some(parts[1]),
        path := Some(parts[2]),
        expires := if timestamp > 0 then Some(timestamp) else None,
        secure := ParseBool(parts[5]),
        httpOnly := ParseBool(parts[6])))
  }

  /** A persisted string is its identity key, a delimiter, and the remaining four fields. */
  lemma EncodeSplitsAtKey(c: Cookie, host: string, value: string)
    ensures Encode(c, host, value)
         == IdentityKey(c, host) + [Bar] + Join(Fields(c, host, value)[3..])
  {
    var f := Fields(c, host, value);
    JoinAppend(f[..3], f[3..]);
    assert f[..3] + f[3..] == f;
    assert f[..3] == [c.name, SlotDomain(c, host), SlotPath(c)];
  }

  /** Every persisted string begins with its cookie's identity key and a delimiter. */
  lemma EncodeHasIdentityPrefix(c: Cookie, host: string, value: string)
    ensures Text.StartsWith(Encode(c, host, value), IdentityKey(c, host) + [Bar])
  {
    EncodeSplitsAtKey(c, host, value);
    Text.StartsWithConcat(IdentityKey(c, host) + [Bar], Join(Fields(c, host, value)[3..]));
  }

  /**
   * When name, domain and path are free of the delimiter, the first three
   * parts of the persisted string are exactly those fields, whatever the
   * value holds.
   */
  lemma EncodeLeadingParts(c: Cookie, host: string, value: string)
    requires BarFree(c.name) && BarFree(SlotDomain(c, host)) && BarFree(SlotPath(c))
    ensures |Split(Encode(c, host, value))| >= 4
    ensures Split(Encode(c, host, value))[..3] == [c.name, SlotDomain(c, host), SlotPath(c)]
  {
    var key := [c.name, SlotDomain(c, host), SlotPath(c)];
    EncodeSplitsAtKey(c, host, value);
    SplitJoinCons(key, Join(Fields(c, host, value)[3..]));
    assert (key + Split(Join(Fields(c, host, value)[3..])))[..3] == key;
  }

  /**
   * Whatever the fields hold, the persisted string splits into at least
   * seven parts, and the first part is the name up to its first delimiter.
   */
  lemma EncodeSplitsIntoSeven(c: Cookie, host: string, value: string)
    ensures |Split(Encode(c, host, value))| >= 7
    ensures Split(Encode(c, host, value))[0] == Split(c.name)[0]
  {
    SplitJoinCovers(Fields(c, host, value));
  }

  /** For fields free of the delimiter, splitting the persisted string gives back the seven fields. */
  lemma SplitEncode(c: Cookie, host: string, value: string)
    requires BarFree(c.name) && BarFree(SlotDomain(c, host)) && BarFree(SlotPath(c)) && BarFree(value)
    ensures Split(Encode(c, host, value)) == Fields(c, host, value)
  {
    var f := Fields(c, host, value);
    NumberFieldsBarFree(c.expires.GetOr(NoExpiry), c.secure);
    NumberFieldsBarFree(c.expires.GetOr(NoExpiry), c.httpOnly);
    assert forall i :: 0 <= i < |f| ==> BarFree(f[i]);
    SplitJoin(f);
  }

  /**
   * Round trip: for fields free of the delimiter and an expiry that is
   * absent or positive, reading back a persisted cookie recovers its name,
   * domain, path, stored value, expiry and both flags.
   */
  lemma DecodeEncode(c: Cookie, host: string, value: string)
    requires BarFree(c.name) && BarFree(SlotDomain(c, host)) && BarFree(SlotPath(c)) && BarFree(value)
    requires c.expires.None? || c.expires.value > 0
    ensures Decode(Encode(c, host, value))
         == Some(Cookie(c.name, value, Some(SlotDomain(c, host)), Some(SlotPath(c)),
                        c.expires, c.secure, c.httpOnly))
  {
    var f := Fields(c, host, value);
    SplitEncode(c, host, value);
    var t := c.expires.GetOr(NoExpiry);
    ParseLongToString(t);
    assert ParseLong(f[4]).GetOr(NoExpiry) == t;
    ParseBoolToString(c.secure);
    ParseBoolToString(c.httpOnly);
  }

  /**
   * A cookie stored with an expiry that is not positive is read back with
   * no expiry, its other fields intact.
   */
  lemma DecodeNonPositiveExpiry(c: Cookie, host: string, value: string)
    requires BarFree(c.name) && BarFree(SlotDomain(c, host)) && BarFree(SlotPath(c)) && BarFree(value)
    requires c.expires.Some? && c.expires.value <= 0
    ensures Decode(Encode(c, host, value))
         == Some(Cookie(c.name, value, Some(SlotDomain(c, host)), Some(SlotPath(c)),
                        None, c.secure, c.httpOnly))
  {
    var f := Fields(c, host, value);
    SplitEncode(c, host, value);
    ParseLongToString(c.expires.value);
    assert ParseLong(f[4]).GetOr(NoExpiry) == c.expires.value;
    ParseBoolToString(c.secure);
    ParseBoolToString(c.httpOnly);
  }

  /** Numbers and flags are written without the delimiter. */
  lemma NumberFieldsBarFree(n: Int64, b: bool)
    ensures BarFree(LongToString(n)) && BarFree(BoolToString(b))
  {
    if n < 0 {
      assert LongToString(n) == "-" + NatToString(-(n as int));
    }
  }

  /**
   * The round trip needs a value free of the delimiter: a value `a|b` is
   * read back as `a`, its tail taking the place of the expiry.
   */
  lemma BarInValueIsCut(c: Cookie, host: string)
    requires BarFree(c.name) && BarFree(SlotDomain(c, host)) && BarFree(SlotPath(c))
    ensures Decode(Encode(c, host, "a|b")).Some?
    ensures Decode(Encode(c, host, "a|b")).value.value == "a"
  {
    var f := Fields(c, host, "a|b");
    var cut := ["a", "b"] + f[4..];
    var g := f[..3] + cut;
    assert Join(f) == Join(f[..3]) + [Bar] + Join(f[3..]) by {
      JoinAppend(f[..3], f[3..]);
      assert f[..3] + f[3..] == f;
    }
    assert Join(f[3..]) == Join(cut) by {
      assert (f[3..])[1..] == f[4..];
      JoinAppend(["a", "b"], f[4..]);
      assert Join(["a", "b"]) == "a|b";
    }
    assert Join(g) == Encode(c, host, "a|b") by {
      JoinAppend(f[..3], cut);
    }
    NumberFieldsBarFree(c.expires.GetOr(NoExpiry), c.secure);
    NumberFieldsBarFree(c.expires.GetOr(NoExpiry), c.httpOnly);
    assert forall i :: 0 <= i < |g| ==> BarFree(g[i]);
    SplitJoin(g);
  }
}

=== FILE: cookie_matcher.dfy ===
/**
 * The three pure tests the cookie store applies to every stored cookie
 * before handing it to a request: expiry, domain and path.
 */
module CookieMatcher {
  import opened Options
  import opened Numbers
  import opened Text

  /**
   * A cookie is expired when it has an expiry strictly before `now`
   * (milliseconds since the epoch, read from the clock by the caller). A
   * session cookie never expires.
   */
  predicate IsExpired(expires: Option<Int64>, now: int) {
    expires.Some? && expires.value < now
  }

  /**
   * Whether a cookie filed under `domain` goes to `host`. A leading dot
   * allows the bare domain itself and any host ending in the dotted
   * domain; without one the host must equal the domain or end in "." and
   * the domain.
   */
  predicate MatchesDomain(host: string, domain: string) {
    if StartsWith(domain, ".") then host == domain[1..] || EndsWith(host, domain)
    else host == domain || EndsWith(host, "." + domain)
  }

  /** Whether a cookie filed under `cookiePath` goes to a request for `requestPath`: a plain prefix test. */
  predicate MatchesPath(requestPath: string, cookiePath: string) {
    StartsWith(requestPath, cookiePath)
  }

  /** The domain with at most one leading dot removed. */
  function BareDomain(domain: string): (b: string)
    ensures StartsWith(domain, ".") ==> domain == "." + b
    ensures !StartsWith(domain, ".") ==> b == domain
  {
    if StartsWith(domain, ".") then domain[1..] else domain
  }

  /**
   * Both branches of the domain rule are one rule: the host is the bare
   * domain, or ends in a dot followed by it. A leading dot on the cookie's
   * domain therefore never changes the outcome.
   */
  lemma DomainRuleIgnoresLeadingDot(host: string, domain: string)
    ensures MatchesDomain(host, domain)
        <==> host == BareDomain(domain) || EndsWith(host, "." + BareDomain(domain))
  {
  }

  /**
   * A matching host other than the bare domain has the domain as a whole
   * trailing label sequence: the character just before it is a dot. So
   * `evilexample.com` never matches `example.com`.
   */
  lemma DomainMatchIsOnLabelBoundary(host: string, domain: string)
    requires MatchesDomain(host, domain) && host != BareDomain(domain)
    ensures var b := BareDomain(domain);
      |b| < |host| && host[|host| - |b| - 1] == '.' && host[|host| - |b|..] == b
  {
    var b := BareDomain(domain);
    DomainRuleIgnoresLeadingDot(host, domain);
    assert EndsWith(host, "." + b);
    assert host[|host| - |b| - 1..] == "." + b;
    assert host[|host| - |b|..] == ("." + b)[1..];
  }

  /** A host matches a domain exactly when it matches the same domain written with a leading dot. */
  lemma LeadingDotEquivalent(host: string, domain: string)
    requires !StartsWith(domain, ".")
    ensures MatchesDomain(host, "." + domain) <==> MatchesDomain(host, domain)
  {
    assert StartsWith("." + domain, ".");
    assert ("." + domain)[1..] == domain;
  }

  /** The examples of the domain rule: a subdomain, the bare domain, a look-alike. */
  lemma DomainExamples()
    ensures MatchesDomain("sub.example.com", ".example.com")
    ensures MatchesDomain("example.com", ".example.com")
    ensures MatchesDomain("example.com", "example.com")
    ensures !MatchesDomain("evilexample.com", "example.com")
  {
    assert "sub.example.com"[3..] == ".example.com";
    assert ".example.com"[1..] == "example.com";
    assert !EndsWith("evilexample.com", ".example.com") by {
      assert "evilexample.com"[3..] != ".example.com" by {
        assert "evilexample.com"[3..][0] == 'l';
      }
    }
  }

  /** A cookie path matches exactly the request paths that extend it. */
  lemma PathMatchIsExtension(requestPath: string, cookiePath: string)
    ensures MatchesPath(requestPath, cookiePath)
        <==> |cookiePath| <= |requestPath| && requestPath == cookiePath + requestPath[|cookiePath|..]
  {
    if |cookiePath| <= |requestPath| && requestPath == cookiePath + requestPath[|cookiePath|..] {
      assert requestPath[..|cookiePath|] == cookiePath;
    }
  }

  /**
   * The path rule is not segment-aware: "/" matches every absolute
   * request path, "/api/v1" does not match "/api", and "/api" matches
   * "/api2".
   */
  lemma PathExamples(rest: string)
    ensures MatchesPath("/" + rest, "/")
    ensures MatchesPath("/api/v1/record", "/")
    ensures !MatchesPath("/api", "/api/v1")
    ensures MatchesPath("/api2", "/api")
  {
    assert ("/" + rest)[..1] == "/";
  }

  /** Expiry is strict: a cookie is still live at the very millisecond it expires. */
  lemma ExpiryIsStrict(t: Int64)
    ensures !IsExpired(Some(t), t)
    ensures IsExpired(Some(t), t + 1)
    ensures forall now :: !IsExpired(None, now)
  {
  }
}

=== FILE: cookie_store.dfy ===
/**
 * The persistent cookie jar: one set of encoded cookie strings stored
 * under the preference key "cookies", with the two operations the HTTP
 * client calls, `addCookie` and `get`.
 */
module CookieStore {
  import opened Options
  import opened Delimited
  import opened Text
  import opened CookieCodec
  import opened CookieMatcher

  /** The persisted string set. */
  type Store = set<string>

  /** The prefix shared by every persisted string in a cookie's slot: its identity key and a delimiter. */
  function SlotPrefix(c: Cookie, host: string): string {
    IdentityKey(c, host) + [Bar]
  }

  /** The string `addCookie` writes for a cookie received from `host`. */
  function Persisted(c: Cookie, host: string, urlDecode: string -> Option<string>): string {
    Encode(c, host, StoredValue(urlDecode, c.value))
  }

  /**
   * `addCookie`: every stored string with the cookie's slot prefix is
   * removed, and then, unless the cookie has already expired, its encoded
   * form is added. An expired cookie therefore deletes its slot.
   */
  function AddCookie(store: Store, host: string, c: Cookie, now: int,
                     urlDecode: string -> Option<string>): (r: Store)
    // last write wins: the slot holds at most the new string
    ensures forall s :: s in r && StartsWith(s, SlotPrefix(c, host)) ==> s == Persisted(c, host, urlDecode)
    // the new string is stored exactly when the cookie is live
    ensures Persisted(c, host, urlDecode) in r <==> !IsExpired(c.expires, now)
    // nothing outside the slot is removed, and nothing else is added
    ensures forall s :: s in store && !StartsWith(s, SlotPrefix(c, host)) ==> s in r
    ensures forall s :: s in r ==> s in store || s == Persisted(c, host, urlDecode)
  {
    var prefix := SlotPrefix(c, host);
    var kept := set s | s in store && !StartsWith(s, prefix);
    var e := Persisted(c, host, urlDecode);
    EncodeHasIdentityPrefix(c, host, StoredValue(urlDecode, c.value));
    if !IsExpired(c.expires, now) then kept + {e} else kept
  }

  /**
   * The identity `[name, domain, path]` of a stored string: its first
   * three `|`-parts, for a string that has a fourth part after them.
   */
  function Identity(s: string): (r: Option<seq<string>>)
    ensures r.Some? ==> |r.value| == 3
  {
    var parts := Split(s);
    if |parts| >= 4 then Some(parts[..3]) else None
  }

  /** No two stored strings share an identity. */
  predicate UniqueIdentities(store: Store) {
    forall s, t :: s in store && t in store && Identity(s).Some? && Identity(s) == Identity(t) ==> s == t
  }

  /** A string with an identity begins with that identity written out and a delimiter. */
  lemma IdentityIsPrefix(s: string)
    requires Identity(s).Some?
    ensures StartsWith(s, Join(Identity(s).value) + [Bar])
  {
    var parts := Split(s);
    JoinSplit(s);
    JoinAppend(parts[..3], parts[3..]);
    assert parts[..3] + parts[3..] == parts;
    StartsWithConcat(Join(parts[..3]) + [Bar], Join(parts[3..]));
  }

  /**
   * Identity uniqueness: adding a cookie whose name, domain and path are
   * free of the delimiter keeps every identity in the store unique.
   */
  lemma AddCookieKeepsIdentitiesUnique(store: Store, host: string, c: Cookie, now: int,
                                       urlDecode: string -> Option<string>)
    requires UniqueIdentities(store)
    requires BarFree(c.name) && BarFree(SlotDomain(c, host)) && BarFree(SlotPath(c))
    ensures UniqueIdentities(AddCookie(store, host, c, now, urlDecode))
  {
    var r := AddCookie(store, host, c, now, urlDecode);
    var e := Persisted(c, host, urlDecode);
    EncodeLeadingParts(c, host, StoredValue(urlDecode, c.value));
    assert Identity(e) == Some([c.name, SlotDomain(c, host), SlotPath(c)]);
    forall s | s in r && Identity(s) == Identity(e)
      ensures s == e
    {
      IdentityIsPrefix(s);
    }
  }

  /** Whether the stored string `s` is handed to a request for `host` and `path` at time `now`. */
  predicate Served(s: string, host: string, path: string, now: int) {
    match Decode(s)
    case None => false
    case Some(k) =>
      !IsExpired(k.expires, now) && MatchesDomain(host, k.domain.value) && MatchesPath(path, k.path.value)
  }

  /** The stored strings a request receives. */
  function Lookup(store: Store, host: string, path: string, now: int): (r: Store)
    ensures r <= store
  {
    set s | s in store && Served(s, host, path, now)
  }

  /**
   * `get`: decodes every stored string, drops the malformed ones, hands
   * out the live cookies whose domain and path match the request, and
   * writes back the set of strings it handed out whenever that set is
   * smaller than the stored one. Each handed-out cookie is returned under
   * the stored string it was read from.
   */
  method Get(store: Store, host: string, path: string, now: int)
    returns (cookies: map<string, Cookie>, persisted: Store)
    ensures cookies.Keys == Lookup(store, host, path, now)
    ensures forall s :: s in cookies ==> Decode(s) == Some(cookies[s])
    ensures forall s :: s in cookies ==>
      !IsExpired(cookies[s].expires, now)
      && MatchesDomain(host, cookies[s].domain.value)
      && MatchesPath(path, cookies[s].path.value)
    ensures persisted == cookies.Keys
  {
    var validCookies: Store := {};
    cookies := map[];
    var pending := store;
    while pending != {}
      invariant pending <= store
      invariant validCookies == cookies.Keys
      invariant forall s :: s in cookies ==> s in store && s !in pending && Decode(s) == Some(cookies[s])
      invariant forall s :: s in store && s !in pending ==> (s in cookies <==> Served(s, host, path, now))
      decreases pending
    {
      var s :| s in pending;
      pending := pending - {s};
      match Decode(s) {
        case Some(k) =>
          if !IsExpired(k.expires, now) && MatchesDomain(host, k.domain.value) && MatchesPath(path, k.path.value) {
            validCookies := validCookies + {s};
            cookies := cookies[s := k];
          }
        case None =>
      }
    }
    if validCookies != store {
      ProperSubsetIsSmaller(validCookies, store);
    }
    if |validCookies| != |store| {
      persisted := validCookies;
    } else {
      persisted := store;
    }
  }

  lemma {:induction false} SubsetIsNoLarger(a: Store, b: Store)
    requires a <= b
    decreases a
    ensures |a| <= |b|
  {
    if a != {} {
      var x :| x in a;
      SubsetIsNoLarger(a - {x}, b - {x});
    }
  }

  lemma ProperSubsetIsSmaller(a: Store, b: Store)
    requires a < b
    ensures |a| < |b|
  {
    assert exists x :: x in b && x !in a;
    var x :| x in b && x !in a;
    SubsetIsNoLarger(a, b - {x});
  }

  /**
   * A live cookie that was just added is handed to exactly the requests
   * its domain and path match while it stays live, and it is handed out
   * with the stored value and the fields it was added with.
   */
  lemma AddedCookieIsServed(store: Store, host: string, c: Cookie, addedAt: int,
                            urlDecode: string -> Option<string>,
                            requestHost: string, requestPath: string, now: int)
    requires BarFree(c.name) && BarFree(SlotDomain(c, host)) && BarFree(SlotPath(c))
    requires BarFree(StoredValue(urlDecode, c.value))
    requires c.expires.None? || c.expires.value > 0
    requires !IsExpired(c.expires, addedAt)
    ensures var e := Persisted(c, host, urlDecode);
      e in Lookup(AddCookie(store, host, c, addedAt, urlDecode), requestHost, requestPath, now)
      <==> !IsExpired(c.expires, now)
           && MatchesDomain(requestHost, SlotDomain(c, host))
           && MatchesPath(requestPath, SlotPath(c))
    ensures Decode(Persisted(c, host, urlDecode))
         == Some(Cookie(c.name, StoredValue(urlDecode, c.value), Some(SlotDomain(c, host)),
                        Some(SlotPath(c)), c.expires, c.secure, c.httpOnly))
  {
    DecodeEncode(c, host, StoredValue(urlDecode, c.value));
  }

  /**
   * After adding an expired cookie no stored string lies in its slot, and
   * everything outside the slot is kept: the store is exactly the old one
   * minus that slot.
   */
  lemma ExpiredCookieDeletesSlot(store: Store, host: string, c: Cookie, now: int,
                                 urlDecode: string -> Option<string>)
    requires IsExpired(c.expires, now)
    ensures AddCookie(store, host, c, now, urlDecode)
         == set s | s in store && !StartsWith(s, SlotPrefix(c, host))
  {
  }

  /**
   * A live, well-formed cookie added to an empty jar is the only thing
   * the jar can hand out: a request its domain and path match gets
   * exactly that cookie with the stored value, any other request gets
   * nothing.
   */
  lemma AddedToEmptyJar(host: string, c: Cookie, addedAt: int, urlDecode: string -> Option<string>,
                        requestHost: string, requestPath: string, now: int)
    requires BarFree(c.name) && BarFree(SlotDomain(c, host)) && BarFree(SlotPath(c))
    requires BarFree(StoredValue(urlDecode, c.value))
    requires c.expires.None? || c.expires.value > 0
    requires !IsExpired(c.expires, addedAt)
    ensures var e := Persisted(c, host, urlDecode);
      var served := Lookup(AddCookie({}, host, c, addedAt, urlDecode), requestHost, requestPath, now);
      && (served == {e} || served == {})
      && (served == {e} <==> !IsExpired(c.expires, now)
                             && MatchesDomain(requestHost, SlotDomain(c, host))
                             && MatchesPath(requestPath, SlotPath(c)))
      && Decode(e).Some? && Decode(e).value.value == StoredValue(urlDecode, c.value)
  {
    var e := Persisted(c, host, urlDecode);
    var added := AddCookie({}, host, c, addedAt, urlDecode);
    assert added == {e};
    AddedCookieIsServed({}, host, c, addedAt, urlDecode, requestHost, requestPath, now);
  }

  /**
   * The scenario of a session token: storing `auth_token=abc` for
   * `api.example.com` in an empty jar and then asking for
   * `/api/v1/record` on the same host hands out exactly that cookie, with
   * value `abc`.
   */
  lemma AuthTokenScenario(urlDecode: string -> Option<string>, addedAt: int, now: int)
    requires StoredValue(urlDecode, "abc") == "abc"
    ensures var c := Cookie("auth_token", "abc", Some("api.example.com"), Some("/"), None, false, false);
      var e := Persisted(c, "api.example.com", urlDecode);
      && Lookup(AddCookie({}, "api.example.com", c, addedAt, urlDecode), "api.example.com", "/api/v1/record", now) == {e}
      && Decode(e).Some? && Decode(e).value.value == "abc"
  {
    var c := Cookie("auth_token", "abc", Some("api.example.com"), Some("/"), None, false, false);
    assert MatchesPath("/api/v1/record", "/") by {
      assert "/api/v1/record"[..1] == "/";
    }
    AddedToEmptyJar("api.example.com", c, addedAt, urlDecode, "api.example.com", "/api/v1/record", now);
  }

  /**
   * As written, the write-back of `get` keeps only the strings it handed
   * out, so a lookup for one host erases the live cookies of every other
   * host: a live, well-formed cookie filed for a domain the request host
   * does not match is gone after that request.
   */
  lemma LookupPurgesOtherHosts(c: Cookie, host: string, urlDecode: string -> Option<string>,
                               requestHost: string, requestPath: string, now: int)
    requires BarFree(c.name) && BarFree(SlotDomain(c, host)) && BarFree(SlotPath(c))
    requires BarFree(StoredValue(urlDecode, c.value))
    requires c.expires.None? || c.expires.value >= now
    requires !MatchesDomain(requestHost, SlotDomain(c, host))
    ensures var e := Persisted(c, host, urlDecode);
      && Decode(e).Some? && !IsExpired(Decode(e).value.expires, now)
      && Lookup({e}, requestHost, requestPath, now) == {}
  {
    var e := Persisted(c, host, urlDecode);
    if c.expires.Some? && c.expires.value <= 0 {
      // a stored expiry that is not positive reads back as "no expiry"
      DecodeNonPositiveExpiry(c, host, StoredValue(urlDecode, c.value));
    } else {
      DecodeEncode(c, host, StoredValue(urlDecode, c.value));
    }
    assert !Served(e, requestHost, requestPath, now);
  }

  /**
   * The evidently intended write-back: drop what is malformed or expired
   * and keep every other stored string, whichever request it is for.
   */
  function CollectGarbage(store: Store, now: int): (r: Store)
    ensures r <= store
    ensures forall host, path :: Lookup(store, host, path, now) <= r
    ensures forall s :: s in store ==> (s in r <==> Decode(s).Some? && !IsExpired(Decode(s).value.expires, now))
  {
    set s | s in store && Decode(s).Some? && !IsExpired(Decode(s).value.expires, now)
  }

  /**
   * `get` with the intended write-back: the same cookies are handed out,
   * and the store keeps every live, well-formed string.
   */
  method GetRetainingLive(store: Store, host: string, path: string, now: int)
    returns (cookies: map<string, Cookie>, persisted: Store)
    ensures cookies.Keys == Lookup(store, host, path, now)
    ensures forall s :: s in cookies ==> Decode(s) == Some(cookies[s])
    ensures persisted == CollectGarbage(store, now)
    ensures forall s :: s in store && Decode(s).Some? && !IsExpired(Decode(s).value.expires, now) ==> s in persisted
  {
    var handedOut;
    cookies, handedOut := Get(store, host, path, now);
    persisted := CollectGarbage(store, now);
  }

  /**
   * With the intended write-back, the cookie of `LookupPurgesOtherHosts`
   * survives the request: every live, well-formed cookie stays stored,
   * whichever host was asked for.
   */
  lemma CollectGarbageKeepsOtherHosts(c: Cookie, host: string, urlDecode: string -> Option<string>, now: int)
    requires BarFree(c.name) && BarFree(SlotDomain(c, host)) && BarFree(SlotPath(c))
    requires BarFree(StoredValue(urlDecode, c.value))
    requires c.expires.None? || c.expires.value >= now
    ensures var store := {Persisted(c, host, urlDecode)};
      CollectGarbage(store, now) == store
  {
    if c.expires.Some? && c.expires.value <= 0 {
      DecodeNonPositiveExpiry(c, host, StoredValue(urlDecode, c.value));
    } else {
      DecodeEncode(c, host, StoredValue(urlDecode, c.value));
    }
  }
}

=== FILE: delimited.dfy ===
/**
 * Kotlin's `String.split("|")` and `String.split("|", limit = n)` over the
 * single delimiter the cookie store uses, together with the joining that
 * the store's string templates perform.
 */
module Delimited {

  /** The field delimiter of the persisted cookie strings. */
  const Bar: char := '|'

  /** A field that can be written between delimiters and read back intact. */
  predicate BarFree(s: string) {
    forall k :: 0 <= k < |s| ==> s[k] != Bar
  }

  /** `s.indexOf('|')`: the first delimiter position, or -1 when there is none. */
  function FirstBar(s: string): (r: int)
    ensures r == -1 ==> BarFree(s)
    ensures r != -1 ==> 0 <= r < |s| && s[r] == Bar && forall k :: 0 <= k < r ==> s[k] != Bar
  {
    if |s| == 0 then -1
    else if s[0] == Bar then 0
    else
      var i := FirstBar(s[1..]);
      if i == -1 then -1 else i + 1
  }

  /**
   * `s.split("|")`: every delimiter separates two parts, so empty parts
   * (leading, inner and trailing) are kept and the empty string gives one
   * empty part.
   */
  function Split(s: string): (parts: seq<string>)
    decreases |s|
    ensures |parts| >= 1
  {
    var i := FirstBar(s);
    if i == -1 then [s]
    else [s[..i]] + Split(s[i + 1..])
  }

  /** The parts written one after another with a delimiter between neighbours. */
  function Join(parts: seq<string>): string
    requires |parts| >= 1
  {
    if |parts| == 1 then parts[0]
    else parts[0] + [Bar] + Join(parts[1..])
  }

  /**
   * `s.split("|", limit = limit)` for a positive limit: at most `limit`
   * parts, the last of which is the whole remainder, delimiters included.
   */
  function SplitLimit(s: string, limit: nat): (parts: seq<string>)
    requires limit >= 1
    decreases limit
    ensures 1 <= |parts| <= limit
  {
    var i := FirstBar(s);
    if i == -1 || limit == 1 then [s]
    else [s[..i]] + SplitLimit(s[i + 1..], limit - 1)
  }

  /** Splitting a string whose first field has no delimiter peels that field off. */
  lemma {:induction false} SplitCons(p: string, rest: string)
    requires BarFree(p)
    ensures Split(p + [Bar] + rest) == [p] + Split(rest)
  {
    var s := p + [Bar] + rest;
    var i := FirstBar(s);
    assert s[|p|] == Bar;
    assert i == |p|;
    assert s[..i] == p;
    assert s[i + 1..] == rest;
  }

  /** Joining two or more parts writes the first one, a delimiter, then the rest joined. */
  lemma JoinCons(parts: seq<string>)
    requires |parts| >= 2
    ensures Join(parts) == parts[0] + [Bar] + Join(parts[1..])
  {
  }

  /**
   * A delimiter between two strings separates their parts: splitting the
   * whole gives the parts of the first followed by the parts of the second,
   * whatever delimiters either of them holds.
   */
  lemma {:induction false} SplitAroundBar(a: string, b: string)
    decreases |a|
    ensures Split(a + [Bar] + b) == Split(a) + Split(b)
  {
    var i := FirstBar(a);
    if i == -1 {
      SplitCons(a, b);
    } else {
      var head, later := a[..i], a[i + 1..];
      assert a == head + [Bar] + later;
      assert Split(a + [Bar] + b) == [head] + Split(later + [Bar] + b) by {
        assert a + [Bar] + b == head + [Bar] + (later + [Bar] + b);
        SplitCons(head, later + [Bar] + b);
      }
      assert Split(later + [Bar] + b) == Split(later) + Split(b) by {
        SplitAroundBar(later, b);
      }
      assert Split(a) == [head] + Split(later) by {
        SplitCons(head, later);
      }
    }
  }

  /**
   * Splitting joined parts gives at least as many parts as were joined, and
   * the first of them is the first part of the first joined string.
   */
  lemma {:induction false} SplitJoinCovers(parts: seq<string>)
    requires |parts| >= 1
    decreases |parts|
    ensures |Split(Join(parts))| >= |parts|
    ensures Split(Join(parts))[0] == Split(parts[0])[0]
  {
    if |parts| >= 2 {
      JoinCons(parts);
      SplitAroundBar(parts[0], Join(parts[1..]));
      SplitJoinCovers(parts[1..]);
    }
  }

  /**
   * Splitting delimiter-free parts joined with one last, arbitrary string
   * gives those parts followed by the split of the last string.
   */
  lemma {:induction false} SplitJoinLast(a: seq<string>, rest: string)
    requires forall i :: 0 <= i < |a| ==> BarFree(a[i])
    decreases |a|
    ensures Split(Join(a + [rest])) == a + Split(rest)
  {
    if |a| == 0 {
      assert a + [rest] == [rest];
    } else {
      var tail := a[1..] + [rest];
      assert Split(Join(a + [rest])) == [a[0]] + Split(Join(tail)) by {
        JoinCons(a + [rest]);
        assert (a + [rest])[1..] == tail;
        SplitCons(a[0], Join(tail));
      }
      assert Split(Join(tail)) == a[1..] + Split(rest) by {
        SplitJoinLast(a[1..], rest);
      }
      assert [a[0]] + (a[1..] + Split(rest)) == a + Split(rest) by {
        assert a == [a[0]] + a[1..];
      }
    }
  }

  /** Splitting a string that starts with joined delimiter-free parts peels those parts off. */
  lemma {:induction false} SplitJoinCons(a: seq<string>, rest: string)
    requires |a| >= 1
    requires forall i :: 0 <= i < |a| ==> BarFree(a[i])
    ensures Split(Join(a) + [Bar] + rest) == a + Split(rest)
  {
    JoinAppend(a, [rest]);
    SplitJoinLast(a, rest);
  }

  /** Splitting undoes joining, for parts free of the delimiter. */
  lemma {:induction false} SplitJoin(parts: seq<string>)
    requires |parts| >= 1
    requires forall i :: 0 <= i < |parts| ==> BarFree(parts[i])
    ensures Split(Join(parts)) == parts
  {
    var n := |parts|;
    var init, last := parts[..n - 1], parts[n - 1];
    assert Split(Join(init + [last])) == init + Split(last) by {
      SplitJoinLast(init, last);
    }
    SplitBarFree(last);
    assert init + [last] == parts;
  }

  /** A string without the delimiter splits into itself alone. */
  lemma SplitBarFree(s: string)
    requires BarFree(s)
    ensures Split(s) == [s]
  {
    assert FirstBar(s) == -1;
  }

  /** Joining undoes splitting, for every string. */
  lemma {:induction false} JoinSplit(s: string)
    decreases |s|
    ensures Join(Split(s)) == s
  {
    var i := FirstBar(s);
    if i != -1 {
      var tail := Split(s[i + 1..]);
      JoinSplit(s[i + 1..]);
      var parts := Split(s);
      assert parts == [s[..i]] + tail;
      assert |parts| >= 2 && parts[0] == s[..i] && parts[1..] == tail;
      assert Join(parts) == s[..i] + [Bar] + Join(tail);
      assert s == s[..i] + [Bar] + s[i + 1..];
    }
  }

  /** Joining two non-empty runs of parts puts one delimiter between them. */
  lemma {:induction false} JoinAppend(a: seq<string>, b: seq<string>)
    requires |a| >= 1 && |b| >= 1
    ensures Join(a + b) == Join(a) + [Bar] + Join(b)
  {
    JoinCons(a + b);
    if |a| == 1 {
      assert (a + b)[1..] == b;
    } else {
      assert (a + b)[1..] == a[1..] + b;
      JoinAppend(a[1..], b);
      JoinCons(a);
    }
  }

  /** Keeping the first `k` parts and rejoining the rest commutes with putting one more part in front. */
  lemma RegroupCons(head: string, tail: seq<string>, k: nat)
    requires 1 <= k < |tail|
    ensures var parts := [head] + tail;
      [head] + (tail[..k - 1] + [Join(tail[k - 1..])]) == parts[..k] + [Join(parts[k..])]
  {
    var parts := [head] + tail;
    assert parts[..k] == [head] + tail[..k - 1];
    assert parts[k..] == tail[k - 1..];
  }

  /**
   * `split` with a limit agrees with the unlimited split: the same parts
   * when there are at most `limit` of them, and otherwise the first
   * `limit - 1` parts followed by all the remaining ones joined back
   * together.
   */
  lemma {:induction false} SplitLimitAgrees(s: string, limit: nat)
    requires limit >= 1
    decreases limit, 1
    ensures var parts := Split(s);
      SplitLimit(s, limit) == if |parts| <= limit then parts
                              else parts[..limit - 1] + [Join(parts[limit - 1..])]
  {
    if FirstBar(s) == -1 {
    } else if limit == 1 {
      JoinSplit(s);
      assert Split(s)[0..] == Split(s);
    } else {
      SplitLimitAgreesPastBar(s, limit);
    }
  }

  /** The case of `SplitLimitAgrees` where a delimiter is found and more than one part is allowed. */
  lemma {:induction false} SplitLimitAgreesPastBar(s: string, limit: nat)
    requires limit >= 2 && FirstBar(s) != -1
    decreases limit, 0
    ensures var parts := Split(s);
      SplitLimit(s, limit) == if |parts| <= limit then parts
                              else parts[..limit - 1] + [Join(parts[limit - 1..])]
  {
    var i := FirstBar(s);
    var head, rest := s[..i], s[i + 1..];
    var tail, limited := Split(rest), SplitLimit(rest, limit - 1);
    assert SplitLimit(s, limit) == [head] + limited;
    assert Split(s) == [head] + tail;
    SplitLimitAgrees(rest, limit - 1);
    if |tail| > limit - 1 {
      assert limited == tail[..limit - 2] + [Join(tail[limit - 2..])];
      RegroupCons(head, tail, limit - 1);
    } else {
      assert limited == tail;
    }
  }
}

=== FILE: login.dfy ===
/**
 * The login session: the `LoginData` record with its eight-valued
 * `LoginState`, and the copy-with-changes transitions of `LoginViewModel`.
 * Each submission is split into the step that enters the loading state and
 * the step that applies the HTTP outcome, so that anything the user does
 * while a request is in flight can be placed between the two.
 */
module Login {

  datatype LoginState =
    | EmailIdle | EmailLoading | EmailSuccess | EmailError
    | OtpIdle | OtpLoading | OtpSuccess | OtpError

  datatype LoginData = LoginData(email: string, emailValid: bool, otp: string, loginState: LoginState)

  /** Every login state, one per step and phase. */
  const AllStates: set<LoginState> :=
    {EmailIdle, EmailLoading, EmailSuccess, EmailError, OtpIdle, OtpLoading, OtpSuccess, OtpError}

  /** `LoginState` has exactly eight values. */
  lemma EightStates()
    ensures forall s: LoginState :: s in AllStates
    ensures |AllStates| == 8
  {
    forall s: LoginState
      ensures s in AllStates
    {
      match s
      case EmailIdle =>
      case EmailLoading =>
      case EmailSuccess =>
      case EmailError =>
      case OtpIdle =>
      case OtpLoading =>
      case OtpSuccess =>
      case OtpError =>
    }
  }

  /** A session as the view model creates it: every field at its default. */
  function Fresh(): (d: LoginData)
    ensures d.email == "" && !d.emailValid && d.otp == "" && d.loginState == EmailIdle
  {
    LoginData("", false, "", EmailIdle)
  }

  /**
   * What a POST ends with: a response with its status code, or an
   * exception thrown before any response arrived.
   */
  datatype HttpOutcome = Response(status: int) | Exception

  /** Ktor's `HttpStatusCode.isSuccess()`: a status in 200..299. */
  predicate IsSuccess(o: HttpOutcome) {
    o.Response? && 200 <= o.status < 300
  }

  /**
   * `updateEmail`: the new address, its validity under `isEmail` (the
   * platform's email-address pattern), and the email step back to idle
   * whatever the state was. The code entered is kept.
   */
  function UpdateEmail(d: LoginData, email: string, isEmail: string -> bool): (r: LoginData)
    ensures r.email == email && r.emailValid == isEmail(email)
    ensures r.loginState == EmailIdle
    ensures r.otp == d.otp
  {
    d.(email := email, emailValid := isEmail(email), loginState := EmailIdle)
  }

  /** `updateOtp`: the new code; an OTP error is cleared to OTP idle, any other state is kept. */
  function UpdateOtp(d: LoginData, otp: string): (r: LoginData)
    ensures r.otp == otp
    ensures r.email == d.email && r.emailValid == d.emailValid
    ensures d.loginState == OtpError ==> r.loginState == OtpIdle
    ensures d.loginState != OtpError ==> r.loginState == d.loginState
  {
    d.(otp := otp, loginState := if d.loginState == OtpError then OtpIdle else d.loginState)
  }

  /** The start of `submitEmail`: the email step is loading, then the code is cleared. */
  function BeginSubmitEmail(d: LoginData): (r: LoginData)
    ensures r.loginState == EmailLoading && r.otp == ""
    ensures r.email == d.email && r.emailValid == d.emailValid
  {
    d.(loginState := EmailLoading).(otp := "")
  }

  /** The end of `submitEmail`: success for a 2xx response; error for any other status and for an exception. */
  function FinishSubmitEmail(d: LoginData, outcome: HttpOutcome): (r: LoginData)
    ensures r.loginState == EmailSuccess <==> IsSuccess(outcome)
    ensures r.loginState == EmailError <==> !IsSuccess(outcome)
    ensures r.email == d.email && r.emailValid == d.emailValid && r.otp == d.otp
  {
    d.(loginState := if IsSuccess(outcome) then EmailSuccess else EmailError)
  }

  /** The start of `submitOtp`: the OTP step is loading. */
  function BeginSubmitOtp(d: LoginData): (r: LoginData)
    ensures r.loginState == OtpLoading
    ensures r.email == d.email && r.emailValid == d.emailValid && r.otp == d.otp
  {
    d.(loginState := OtpLoading)
  }

  /** The end of `submitOtp`: success for a 2xx response; error for any other status and for an exception. */
  function FinishSubmitOtp(d: LoginData, outcome: HttpOutcome): (r: LoginData)
    ensures r.loginState == OtpSuccess <==> IsSuccess(outcome)
    ensures r.loginState == OtpError <==> !IsSuccess(outcome)
    ensures r.email == d.email && r.emailValid == d.emailValid && r.otp == d.otp
  {
    d.(loginState := if IsSuccess(outcome) then OtpSuccess else OtpError)
  }

  /** `resetErrorState`: an error goes back to its step's idle state; every other state is kept. */
  function ResetErrorState(d: LoginData): (r: LoginData)
    ensures d.loginState == EmailError ==> r.loginState == EmailIdle
    ensures d.loginState == OtpError ==> r.loginState == OtpIdle
    ensures d.loginState !in {EmailError, OtpError} ==> r == d
    ensures r.email == d.email && r.emailValid == d.emailValid && r.otp == d.otp
  {
    match d.loginState
    case EmailError => d.(loginState := EmailIdle)
    case OtpError => d.(loginState := OtpIdle)
    case _ => d
  }

  /** Dismissing an error twice is the same as dismissing it once. */
  lemma ResetErrorStateIdempotent(d: LoginData)
    ensures ResetErrorState(ResetErrorState(d)) == ResetErrorState(d)
    ensures ResetErrorState(d).loginState !in {EmailError, OtpError}
  {
  }

  /**
   * A whole `submitEmail` once its outcome has arrived: never left
   * loading, successful exactly for a 2xx response, and the code cleared.
   */
  lemma SubmitEmailSettles(d: LoginData, outcome: HttpOutcome)
    ensures var r := FinishSubmitEmail(BeginSubmitEmail(d), outcome);
      && r.loginState != EmailLoading
      && (r.loginState == EmailSuccess <==> IsSuccess(outcome))
      && r.otp == "" && r.email == d.email && r.emailValid == d.emailValid
  {
  }

  /** A whole `submitOtp` once its outcome has arrived: never left loading, the form untouched. */
  lemma SubmitOtpSettles(d: LoginData, outcome: HttpOutcome)
    ensures var r := FinishSubmitOtp(BeginSubmitOtp(d), outcome);
      && r.loginState != OtpLoading
      && (r.loginState == OtpSuccess <==> IsSuccess(outcome))
      && r.otp == d.otp && r.email == d.email && r.emailValid == d.emailValid
  {
  }

  /** `clearCookies`: the preference file holding the cookie set is emptied. */
  function ClearCookies(store: set<string>): set<string> {
    {}
  }

  /** The things that can happen to a session, in the order they happen. */
  datatype Event =
    | EmailEdited(email: string)
    | OtpEdited(otp: string)
    | EmailSubmitted
    | EmailAnswered(outcome: HttpOutcome)
    | OtpSubmitted
    | OtpAnswered(outcome: HttpOutcome)
    | ErrorDismissed

  function Step(d: LoginData, e: Event, isEmail: string -> bool): LoginData {
    match e
    case EmailEdited(email) => UpdateEmail(d, email, isEmail)
    case OtpEdited(otp) => UpdateOtp(d, otp)
    case EmailSubmitted => BeginSubmitEmail(d)
    case EmailAnswered(outcome) => FinishSubmitEmail(d, outcome)
    case OtpSubmitted => BeginSubmitOtp(d)
    case OtpAnswered(outcome) => FinishSubmitOtp(d, outcome)
    case ErrorDismissed => ResetErrorState(d)
  }

  /** The session after a fresh start and then `events`. */
  function Run(events: seq<Event>, isEmail: string -> bool): LoginData {
    if |events| == 0 then Fresh()
    else Step(Run(events[..|events| - 1], isEmail), events[|events| - 1], isEmail)
  }

  /**
   * The validity flag always describes the current address: it starts
   * false for the empty address (which the email pattern rejects) and
   * only `updateEmail` changes either.
   */
  lemma {:induction false} EmailValidTracksEmail(events: seq<Event>, isEmail: string -> bool)
    requires !isEmail("")
    ensures Run(events, isEmail).emailValid == isEmail(Run(events, isEmail).email)
  {
    if |events| > 0 {
      EmailValidTracksEmail(events[..|events| - 1], isEmail);
    }
  }

  /**
   * The session only reaches OTP success through a 2xx answer to an OTP
   * submission: no other event produces that state.
   */
  lemma {:induction false} SignedInOnlyAfterAcceptedOtp(events: seq<Event>, isEmail: string -> bool)
    requires Run(events, isEmail).loginState == OtpSuccess
    ensures exists i :: 0 <= i < |events| && events[i].OtpAnswered? && IsSuccess(events[i].outcome)
  {
    var n := |events|;
    var before := Run(events[..n - 1], isEmail);
    var last := events[n - 1];
    if last.OtpAnswered? && IsSuccess(last.outcome) {
    } else {
      assert before.loginState == OtpSuccess;
      SignedInOnlyAfterAcceptedOtp(events[..n - 1], isEmail);
      var i :| 0 <= i < n - 1 && events[..n - 1][i].OtpAnswered? && IsSuccess(events[..n - 1][i].outcome);
      assert events[i] == events[..n - 1][i];
    }
  }

  /**
   * No request is cancelled when the form changes: an address edited
   * while the email request is in flight ends up marked as sent by that
   * request's 2xx answer, although the request carried the old address.
   */
  lemma StaleAnswerMarksEditedEmailSent(d: LoginData, edited: string, isEmail: string -> bool, status: int)
    requires 200 <= status < 300
    ensures var sent := BeginSubmitEmail(d);
      var r := FinishSubmitEmail(UpdateEmail(sent, edited, isEmail), Response(status));
      r.loginState == EmailSuccess && r.email == edited
  {
  }
}

=== FILE: numbers.dfy ===
/**
 * The number and boolean text conversions of the persisted cookie string:
 * `Long.toString()`, `String.toLongOrNull()`, `Boolean.toString()` and
 * `String.toBoolean()`.
 */
module Numbers {
  import opened Options
  import Text

  /** Kotlin's `Long`: a signed 64-bit integer. */
  type Int64 = x: int | -0x8000_0000_0000_0000 <= x < 0x8000_0000_0000_0000

  predicate IsDigit(c: char) {
    '0' <= c <= '9'
  }

  function DigitChar(d: nat): (c: char)
    requires d < 10
    ensures IsDigit(c) && c as int - '0' as int == d
  {
    ('0' as int + d) as char
  }

  /** Decimal digits of `n`, most significant first, without leading zeros. */
  function NatToString(n: nat): (s: string)
    ensures |s| >= 1 && IsDigit(s[0])
    ensures forall i :: 0 <= i < |s| ==> IsDigit(s[i])
  {
    if n < 10 then [DigitChar(n)] else NatToString(n / 10) + [DigitChar(n % 10)]
  }

  /** `n.toString()` for a `Long`: a minus sign before the digits of a negative number. */
  function LongToString(n: Int64): string {
    if n < 0 then "-" + NatToString(-(n as int)) else NatToString(n)
  }

  /** The value of a run of decimal digits (0 for the empty run). */
  function DigitsValue(s: string): nat
    requires forall i :: 0 <= i < |s| ==> IsDigit(s[i])
  {
    if |s| == 0 then 0
    else
      assert IsDigit(s[|s| - 1]);
      DigitsValue(s[..|s| - 1]) * 10 + (s[|s| - 1] as int - '0' as int)
  }

  predicate AllDigits(s: string) {
    forall i :: 0 <= i < |s| ==> IsDigit(s[i])
  }

  /** `v` if it fits a `Long`, otherwise nothing (the overflow checks of `toLongOrNull`). */
  function InLongRange(v: int): (r: Option<Int64>)
    ensures r.Some? <==> -0x8000_0000_0000_0000 <= v < 0x8000_0000_0000_0000
    ensures r.Some? ==> r.value == v
  {
    if -0x8000_0000_0000_0000 <= v < 0x8000_0000_0000_0000 then Some(v) else None
  }

  /**
   * `s.toLongOrNull()`: an optional sign (only a character below '0' is
   * taken for one, and it must be '-' or '+' with at least one character
   * after it) followed by decimal digits whose value fits a `Long`.
   */
  function ParseLong(s: string): (r: Option<Int64>)
    ensures r.Some? ==> |s| >= 1
    ensures r.Some? && IsDigit(s[0]) ==> AllDigits(s) && r.value == DigitsValue(s)
    ensures r.Some? && !IsDigit(s[0]) ==>
      (s[0] == '-' || s[0] == '+') && |s| >= 2 && AllDigits(s[1..])
      && r.value == (if s[0] == '-' then -(DigitsValue(s[1..]) as int) else DigitsValue(s[1..]))
    // and conversely every well-formed text whose value fits a `Long` parses
    ensures |s| >= 1 && AllDigits(s) ==>
      (r.Some? <==> DigitsValue(s) < 0x8000_0000_0000_0000) && (r.Some? ==> r.value == DigitsValue(s))
    ensures |s| >= 2 && s[0] == '+' && AllDigits(s[1..]) ==>
      (r.Some? <==> DigitsValue(s[1..]) < 0x8000_0000_0000_0000) && (r.Some? ==> r.value == DigitsValue(s[1..]))
    ensures |s| >= 2 && s[0] == '-' && AllDigits(s[1..]) ==>
      (r.Some? <==> DigitsValue(s[1..]) <= 0x8000_0000_0000_0000) && (r.Some? ==> r.value == -(DigitsValue(s[1..]) as int))
  {
    if |s| == 0 then None
    else if s[0] < '0' then
      if |s| == 1 then None
      else if !AllDigits(s[1..]) then None
      else if s[0] == '-' then InLongRange(-(DigitsValue(s[1..]) as int))
      else if s[0] == '+' then InLongRange(DigitsValue(s[1..]))
      else None
    else if !AllDigits(s) then None
    else InLongRange(DigitsValue(s))
  }

  lemma {:induction false} DigitsOfNat(n: nat)
    ensures DigitsValue(NatToString(n)) == n
  {
    if n >= 10 {
      var s := NatToString(n);
      DigitsOfNat(n / 10);
      assert s[..|s| - 1] == NatToString(n / 10);
    }
  }

  /** Reading a `Long` back from its decimal text gives the same number. */
  lemma {:induction false} ParseLongToString(n: Int64)
    ensures ParseLong(LongToString(n)) == Some(n)
  {
    if n < 0 {
      var m: nat := -(n as int);
      var digits := NatToString(m);
      var s := LongToString(n);
      assert s == "-" + digits;
      DigitsOfNat(m);
      assert s[0] == '-' && |s| >= 2 && s[1..] == digits;
      assert AllDigits(s[1..]);
      assert ParseLong(s) == InLongRange(-(DigitsValue(digits) as int));
    } else {
      var digits := NatToString(n);
      DigitsOfNat(n);
      assert AllDigits(digits) && !(digits[0] < '0');
      assert ParseLong(digits) == InLongRange(DigitsValue(digits));
    }
  }

  /** `b.toString()`. */
  function BoolToString(b: bool): string {
    if b then "true" else "false"
  }

  /** `s.toBoolean()`: true exactly for "true" in any letter case. */
  function ParseBool(s: string): bool {
    Text.EqualsIgnoreCase(s, "true")
  }

  /** Reading a boolean back from its text gives the same boolean. */
  lemma ParseBoolToString(b: bool)
    ensures ParseBool(BoolToString(b)) == b
  {
    if b {
      assert Text.MatchesAt("true", "true", 0);
    }
  }
}

=== FILE: options.dfy ===
/** Optional values, standing in for Kotlin's nullable types (`T?`). */
module Options {

  datatype Option<+T> = None | Some(value: T) {

    /** The value, or `default` when there is none: Kotlin's elvis operator `x ?: default`. */
    function GetOr(default: T): (r: T)
      ensures Some? ==> r == value
      ensures None? ==> r == default
    {
      match this
      case Some(v) => v
      case None => default
    }
  }
}

=== FILE: text.dfy ===
/**
 * The string predicates of the Kotlin standard library that the cookie
 * store and the login check rely on: `startsWith`, `endsWith` and
 * `contains(…, ignoreCase = true)`.
 */
module Text {

  /** `s.startsWith(p)`: the empty prefix is a prefix of every string. */
  predicate StartsWith(s: string, p: string) {
    |p| <= |s| && s[..|p|] == p
  }

  /** `s.endsWith(suffix)`. */
  predicate EndsWith(s: string, suffix: string) {
    |suffix| <= |s| && s[|s| - |suffix|..] == suffix
  }

  lemma {:induction false} StartsWithConcat(p: string, rest: string)
    ensures StartsWith(p + rest, p)
  {
    assert (p + rest)[..|p|] == p;
  }

  /**
   * Upper-case mapping of one character, as `Char.uppercaseChar()` gives
   * it for every character whose upper case is ASCII: the ASCII letters,
   * the dotless i (U+0131) and the long s (U+017F). Every other character
   * is left as it is.
   */
  function UpperChar(c: char): char {
    if 'a' <= c <= 'z' then (c as int - 32) as char
    else if c == '\U{0131}' then 'I'
    else if c == '\U{017F}' then 'S'
    else c
  }

  /**
   * Lower-case mapping of one character, as `Char.lowercaseChar()` gives
   * it for every character whose lower case is ASCII: the ASCII letters,
   * the dotted capital I (U+0130) and the Kelvin sign (U+212A).
   */
  function LowerChar(c: char): char {
    if 'A' <= c <= 'Z' then (c as int + 32) as char
    else if c == '\U{0130}' then 'i'
    else if c == '\U{212A}' then 'k'
    else c
  }

  /**
   * Kotlin's `Char.equals(other, ignoreCase = true)`: equal, or equal once
   * both are upper-cased, or equal once the upper-cased forms are
   * lower-cased again. With the case maps above this is exact whenever one
   * of the two characters is ASCII, which is the only way it is used here.
   */
  predicate CharEqualsIgnoreCase(a: char, b: char) {
    a == b
    || UpperChar(a) == UpperChar(b)
    || LowerChar(UpperChar(a)) == LowerChar(UpperChar(b))
  }

  /** `needle` occurs in `s` at offset `i`, ignoring case. */
  predicate MatchesAt(s: string, needle: string, i: nat)
    requires i + |needle| <= |s|
  {
    forall k :: 0 <= k < |needle| ==> CharEqualsIgnoreCase(s[i + k], needle[k])
  }

  /** `a.equals(b, ignoreCase = true)`. */
  predicate EqualsIgnoreCase(a: string, b: string) {
    |a| == |b| && MatchesAt(a, b, 0)
  }

  /**
   * `s.indexOf(needle, from, ignoreCase = true)`: the first offset at or
   * after `from` where `needle` occurs ignoring case, or -1 when there is
   * none.
   */
  function IndexOfIgnoreCase(s: string, needle: string, from: nat): (r: int)
    decreases |s| - from
    ensures r == -1 || (from <= r && r + |needle| <= |s| && MatchesAt(s, needle, r))
    ensures r >= 0 ==> forall i :: from <= i < r ==> !MatchesAt(s, needle, i)
    ensures r == -1 ==> forall i :: from <= i && i + |needle| <= |s| ==> !MatchesAt(s, needle, i)
  {
    if |s| < from + |needle| then -1
    else if MatchesAt(s, needle, from) then from
    else IndexOfIgnoreCase(s, needle, from + 1)
  }

  /** `s.contains(needle, ignoreCase = true)`. */
  predicate ContainsIgnoreCase(s: string, needle: string) {
    IndexOfIgnoreCase(s, needle, 0) >= 0
  }

  /** `contains` holds exactly when some offset matches. */
  lemma ContainsIgnoreCaseIff(s: string, needle: string)
    ensures ContainsIgnoreCase(s, needle)
        <==> exists i :: 0 <= i && i + |needle| <= |s| && MatchesAt(s, needle, i)
  {
  }

  /** A match inside a slice is a match at the shifted offset of the whole string. */
  lemma MatchesAtOffset(s: string, t: string, d: nat, needle: string, i: nat)
    requires i + |needle| <= |t| && d + |t| <= |s|
    requires s[d..d + |t|] == t
    ensures MatchesAt(s, needle, d + i) <==> MatchesAt(t, needle, i)
  {
    forall k | 0 <= k < |needle|
      ensures CharEqualsIgnoreCase(s[d + i + k], needle[k]) <==> CharEqualsIgnoreCase(t[i + k], needle[k])
    {
      assert s[d..d + |t|][i + k] == s[d + i + k];
    }
  }

  /** An occurrence stays an occurrence when text is added after it. */
  lemma ContainsInPrefix(a: string, rest: string, needle: string)
    requires ContainsIgnoreCase(a, needle)
    ensures ContainsIgnoreCase(a + rest, needle)
  {
    var s := a + rest;
    var i := IndexOfIgnoreCase(a, needle, 0);
    assert s[0..|a|] == a;
    MatchesAtOffset(s, a, 0, needle, i);
    ContainsIgnoreCaseIff(s, needle);
  }

  /** An occurrence stays an occurrence when text is added before it. */
  lemma ContainsInSuffix(pre: string, b: string, needle: string)
    requires ContainsIgnoreCase(b, needle)
    ensures ContainsIgnoreCase(pre + b, needle)
  {
    var s := pre + b;
    var j := IndexOfIgnoreCase(b, needle, 0);
    assert s[|pre|..|pre| + |b|] == b;
    MatchesAtOffset(s, b, |pre|, needle, j);
    ContainsIgnoreCaseIff(s, needle);
  }

  /**
   * An occurrence in `a`, separator, `b` lies wholly in `a` or wholly in
   * `b` when the separator matches no character of the needle.
   */
  lemma ContainsSplitsAtSeparator(a: string, sep: char, b: string, needle: string)
    requires forall k :: 0 <= k < |needle| ==> !CharEqualsIgnoreCase(sep, needle[k])
    requires ContainsIgnoreCase(a + [sep] + b, needle)
    ensures ContainsIgnoreCase(a, needle) || ContainsIgnoreCase(b, needle)
  {
    var s := a + [sep] + b;
    var after := |a| + 1;
    // no match can cover the separator
    forall j | 0 <= j <= |a| < j + |needle| && j + |needle| <= |s|
      ensures !MatchesAt(s, needle, j)
    {
      var k := |a| - j;
      assert s[j + k] == sep;
      assert !CharEqualsIgnoreCase(s[j + k], needle[k]);
    }
    var i := IndexOfIgnoreCase(s, needle, 0);
    if i + |needle| <= |a| {
      assert s[0..|a|] == a;
      MatchesAtOffset(s, a, 0, needle, i);
      ContainsIgnoreCaseIff(a, needle);
    } else {
      assert i > |a|;
      assert s[after..after + |b|] == b;
      MatchesAtOffset(s, b, after, needle, i - after);
      ContainsIgnoreCaseIff(b, needle);
    }
  }

  /**
   * A separator that matches no character of the needle splits the
   * search: the needle occurs in `a`, separator, `b` exactly when it
   * occurs in `a` or in `b`.
   */
  lemma ContainsAroundSeparator(a: string, sep: char, b: string, needle: string)
    requires forall k :: 0 <= k < |needle| ==> !CharEqualsIgnoreCase(sep, needle[k])
    ensures ContainsIgnoreCase(a + [sep] + b, needle)
        <==> ContainsIgnoreCase(a, needle) || ContainsIgnoreCase(b, needle)
  {
    if ContainsIgnoreCase(a + [sep] + b, needle) {
      ContainsSplitsAtSeparator(a, sep, b, needle);
    }
    if ContainsIgnoreCase(a, needle) {
      ContainsInPrefix(a, [sep] + b, needle);
      assert a + ([sep] + b) == a + [sep] + b;
    }
    if ContainsIgnoreCase(b, needle) {
      ContainsInSuffix(a + [sep], b, needle);
    }
  }
}
